=== FILE: README.md ===
# Cloudflare–Plesk DNS sync: the reconciliation logic, modelled in Dafny

The system copies ACME DNS-01 challenge TXT records from a Plesk control panel
to Cloudflare and removes records it created for domains Plesk no longer hosts.
This project models the decision logic of `core.js` with every remote call
replaced by an input value. What is left is a set of pure sequence and string
functions, plus one loop.

- **Bounded retry** (`Fetch`). `fetchWithRetry` runs against a script of attempt
  outcomes. The model returns how the call settles, how many attempts were made,
  and the delays slept between attempts. The `retries` parameter is general;
  every caller in `core.js` uses the default `retries = 3` (core.js:35).
- **Inventories and domain sets** (`Domains`). This covers `grabDomainNames`,
  the paginated `grabCloudflareDomains`, `filterDomains` and the
  `inactiveDomains` filter of the cleanup. The process-wide `domainInfo` list is
  passed in and returned explicitly.
- **Challenge records** (`Challenge`). This covers the line extraction of
  `getDNSRecords`, the append-based `mergeDNS`, and the POST/PUT/no-op choice
  and request body of `updateDNSRecord`. A record is the positional field array
  the source builds. Out-of-range indices read as `undefined`, which is
  `Option.None` here, and the comparisons are JavaScript's `===`.
- **Cleanup** (`Cleanup`). This covers zone lookup in `domainInfo`, the
  `metadata.autoGenerated` provenance check, and the per-zone delete loop. That
  loop stops at the first failed DELETE, because the throw leaves the inner loop.
- Helpers: `Text` has JavaScript `split` and `includes` for a one-character
  separator. `Json` has JSON values, property reads and truthiness. `Seqs` has
  `filter`. `Wrappers` has `Option` and `Result`.

How remote calls are represented:

- Calls issued in a fixed order use a scripted sequence: the attempts of one
  retry loop, and the pages of the zone listing. A request past the end of the
  script fails with `Unanswered`. This makes the pagination loop total. In the
  source that loop ends in two ways: when a page says it is the last, or when a
  page fails and the throw leaves the loop for the catch (core.js:87).
- Calls identified by what they ask for use a total function of the request:
  - the CLI call of a domain;
  - the TXT lookup keyed by `record[4]` and `record[5]`;
  - a zone's record listing;
  - a DELETE.
- Each such input is the settled outcome of the call after its own retries.
  It is an `Err` when the call threw, or when the body lacks a field the source
  then reads, such as `stdout`, `result` or `result_info`. The source's catch
  receives that TypeError in the same way.

Behaviour of the code worth stating, since some of it differs from what its
names and comments suggest:

- The comment at core.js:43 says "Exponential backoff", but the delay is linear,
  `1000 * (i + 1)` ms, with no wait after the final attempt.
- Lines with fewer than four fields are not dropped. Every line containing
  `_acme-challenge` is kept, split on single spaces.
- The lookup uses `record[4]` as the zone and asks for the name
  `_acme-challenge.` followed by `record[5]` (core.js:123). The record's own
  first field `record[0]` is not used for the lookup.
- `mergeDNS` appends at the end of the array. The create/update choice therefore
  works as described only for lines of exactly six fields (`SixFieldRecords`).
  The four-field line `_acme-challenge.example.com TXT 300 "tok123"` is PUT to
  zone `create` with record id `undefined` instead of being POSTed
  (`FourFieldLineExample`, `FourFieldRecordsNeverPost`).
- A record of four to six fields whose lookup threw is still PUT, to record id
  `undefined` (`FailedLookupStillPuts`).
- The mocked responses in `tests/index.test.js` carry no `ok` field. The retry
  loop therefore counts them as failures. The tests' intended scenarios are
  stated here as inputs that already succeeded (`PanelListing`,
  `SinglePageListing`).

## Model

| member | source | states |
|---|---|---|
| Fetch.FetchWithRetry | core.js:35-46 | `retries <= 0` makes no attempt and settles `undefined`; otherwise 1..`retries` attempts, every attempt before the last one failed (a non-`ok` response is a failure), a success is the last attempt's JSON, a throw happens exactly when all `retries` attempts failed and carries the last attempt's error, and the waits are 1000, 2000, ... for every attempt but the last |
| Domains.GrabDomainNames | core.js:48-63 | the `name` of every control-panel entry in order, or `[]` when the request failed |
| Domains.PanelListing | tests/index.test.js:9-17 | the listing `[{name: 'example.com'}]` yields `['example.com']` |
| Domains.Paginate | core.js:70-86 | from any point of the loop, the zones gathered are those of pages 1..n for an n at which every page was requested within the re-read `total_pages` and succeeded, and after which the loop stops |
| Domains.GrabCloudflareDomains | core.js:67-91 | the names returned are the concatenation in page order of the names of pages 1..n, where n is where the loop stopped (past `total_pages`, or at a failed page keeping the partial list), and `domainInfo` grows by exactly those zones |
| Domains.PagesReadUnique | core.js:72-86 | at most one page count both proceeds and stops, so the responses determine the result |
| Domains.FirstPageFailureGathersNothing | core.js:68-90 | page 1 is always requested; if it fails the result is `[]` and `domainInfo` is unchanged |
| Domains.SinglePageListing | tests/index.test.js:20-31 | one page `{result: [{name: 'example.com'}], total_pages: 1}` yields `['example.com']` |
| Domains.FilterDomains | core.js:93-96 | a name is kept iff it is in both lists; each kept name keeps all of its occurrences in the provider list; empty if either list is empty |
| Domains.FilterDomainsAppend | core.js:95 | the filter commutes with concatenation, so it keeps the provider list's order |
| Domains.StaleDomains | core.js:209 | a name is kept iff it is in the provider list and not active, with all its occurrences; with no active domains the whole provider list is stale |
| Domains.StaleDomainsAppend | core.js:209 | the stale filter keeps the provider list's order |
| Domains.PartitionCloudflareList | core.js:209 | with the same inputs as `filterDomains` (core.js:95), the live and stale lists share no name and together hold every provider entry exactly once |
| Domains.IntersectionSymmetric | core.js:95 | as a set of names, the intersection does not depend on the order of its arguments |
| Domains.CleanupScopeExample | core.js:205-209 | provider domains a, b, c with active a, b leave exactly c stale |
| Text.Split | core.js:110 | `split` on one character gives at least one piece, no piece holds the separator, and joining the pieces gives the string back |
| Text.SplitJoin | core.js:110 | splitting joined separator-free pieces gives the pieces back, so the split is the unique such decomposition |
| Text.Includes | core.js:110 | `includes` holds iff the pattern occurs at some index |
| Challenge.ChallengeLines | core.js:110 | a line is kept iff it is a line of `stdout` containing `_acme-challenge`, each kept line as often as it occurs in `stdout` |
| Challenge.ChallengeLinesAppend | core.js:110 | the marker lines of two texts joined by a line break are those of the first followed by those of the second, so the kept lines follow `stdout` order |
| Challenge.ChallengeLinesSingle | core.js:110 | a single line is kept iff it contains `_acme-challenge` |
| Text.SplitAppend | core.js:110 | splitting at a separator occurrence gives the pieces before it followed by the pieces after it |
| Challenge.DomainRecords | core.js:99-114 | a failed domain yields nothing; otherwise one record per marker line, each of which joins back with single spaces to its line |
| Challenge.DomainRecordsRejoin | core.js:110 | rejoining a domain's records gives exactly its marker lines, in order |
| Challenge.DomainRecordsAreFieldArrays | core.js:110 | a record equals a space-free field array iff that array joins to the corresponding marker line |
| Challenge.GetDNSRecords | core.js:98-117 | every record rejoins to a line containing the marker, has space-free fields, and is a line of the output of some listed domain whose call succeeded; conversely every record of every listed domain is in the result |
| Challenge.GetDNSRecordsSingle | core.js:99-116 | a list holding one domain yields exactly that domain's records |
| Challenge.GetDNSRecordsAppend | core.js:99-116 | the flattened result of a list of domains is the results of its parts in domain order |
| Challenge.FailedDomainContributesNothing | core.js:111-114 | removing a domain whose call failed does not change the result |
| Challenge.Merge | core.js:132-141 | existing fields are never changed; a failed lookup leaves the record unchanged and is the only case that does; an empty lookup appends exactly `"create"`; otherwise the first result's `id` and `content` are appended |
| Challenge.MergeIgnoresLaterEntries | core.js:132-137 | only the first lookup result influences the merge |
| Challenge.MergeDNS | core.js:119-144 | one merged record per input, each the merge of its own record with the lookup of that record's `record[4]` and `record[5]`, so it extends its own record by at most two fields and is unchanged iff its own lookup failed |
| Challenge.Decide | core.js:146-178 | POST iff `f[6] === 'create'`; otherwise PUT to id `f[6]` iff `f[3] !== f[7]`; otherwise nothing; both requests go to zone `f[4]` with body `{type: f[1], name: f[0], content: f[3], ttl: 1}` |
| Challenge.SixFieldRecords | core.js:132-178 | for a six-field record the decision follows the lookup: POST when the provider holds nothing, PUT to the found id when the contents differ, nothing when they agree, PUT to id `undefined` when the lookup failed |
| Challenge.ClassificationInvariant | core.js:156-178 | for six-field records whose lookup succeeded: a PUT names an existing record with different content; no request means the contents agree |
| Challenge.SecondRunIssuesNothing | core.js:166-177 | for a six-field record whose first lookup entry's id is not `"create"`: once the provider holds the desired content, a later run issues no request (four-field records are PUT on every run, see `FourFieldRecordsNeverPost`) |
| Challenge.FailedLookupStillPuts | core.js:138-166 | a record of four to six fields whose lookup threw is PUT to record id `undefined` |
| Challenge.FourFieldRecordsNeverPost | core.js:132-166 | a four-field record is always PUT to id `undefined`, whatever the lookup returned |
| Challenge.FourFieldLineExample | core.js:110-175 | the line `_acme-challenge.example.com TXT 300 "tok123"` splits into four fields, and with no provider record it is PUT to zone `create` |
| Json.Member | core.js:226 | reading `autoGenerated` yields a value exactly for an object that has that member, and the value is that member's |
| Json.FalsyValues | core.js:226 | a value is falsy iff it is absent, `null`, `false`, `0` or the empty string |
| Seqs.Filter | core.js:95 | `filter` returns no more elements than it was given, and every element it returns satisfies the predicate |
| Seqs.FilterMembership | core.js:95 | an element is in the filtered list iff it is in the list and satisfies the predicate |
| Seqs.FilterCount | core.js:95 | a kept element occurs as often as in the input, a dropped one not at all |
| Cleanup.ZoneIdOf | core.js:213 | the id of the first zone in `domainInfo` with that name, or none iff no zone has it |
| Cleanup.ShouldDeleteIffMarked | core.js:226 | a record is deleted iff its metadata is an object whose `autoGenerated` member is truthy |
| Cleanup.DeleteMarked | core.js:224-238 | only marked records get a DELETE, in listing order, as a prefix of the marked records; every DELETE but the last succeeded; it stops short only after a failed DELETE; when all succeed every marked record is deleted |
| Cleanup.DomainDeletions | core.js:212-241 | no deletion when the zone is unknown or its listing fails; otherwise one deletion in that zone per DELETE issued by the per-zone loop, in order; every deletion is a marked record listed in the zone found for the domain; when every DELETE succeeds the deletions are exactly the marked records in order |
| Cleanup.CleanupDomains | core.js:211-242 | every deletion is a marked record listed in the zone of some inactive domain |
| Cleanup.CleanupDomainsAppend | core.js:211-242 | the run over a concatenation of domain lists is the runs over the parts, so one domain's failure leaves the others' deletions as they would be |
| Cleanup.CleanupDomainsSingle | core.js:211-242 | one inactive domain yields exactly its own deletions |
| Cleanup.CleanupDomainsComplete | core.js:211-242 | when every DELETE succeeds, the deletions are exactly the marked records of every inactive domain whose zone is known and listed, in order |
| Cleanup.CleanupDNSRecords | core.js:205-243 | every deletion is a marked record, listed in the zone of a provider domain that the control panel does not list; the `domainInfo` left behind is the incoming one grown by the zones of pages 1..n, where n is the page at which the zone listing stopped |
| Cleanup.CleanupDNSRecordsComplete | core.js:205-243 | when every DELETE succeeds, a run deletes exactly the marked records of the zones of the provider domains the control panel does not list |
| Cleanup.PanelFailureCleansEveryDomain | core.js:206-209 | when the control panel listing fails, every provider domain counts as inactive and is cleaned up |

## Left out

- Transport and I/O are left out: `node-fetch`, real HTTP responses, `dotenv`
  and `process.env`, the `winston` logger, `nodemailer` and `sendAlertEmail`.
  The model receives outcomes as inputs.
- `setTimeout` is not modelled as elapsed time. The backoff delays are returned
  as a list of milliseconds.
- `Promise.all` fan-out in `getDNSRecords`, `mergeDNS` and `updateDNS` is a
  sequential map. Each element's outcome depends only on its own request, so the
  order of completion does not matter.
- The URLs and headers of requests are left out. Each request is identified by
  the values the source interpolates into its URL.
- `updateDNSRecord` catches and logs the outcome of its POST or PUT. Nothing
  depends on it, so only the request it issues is modelled.
- `renewSSLCertificates` is left out. It runs `certbot` through
  `child_process.exec` and passes a bare domain string to `updateDNSRecord`.
- `monitorDomainHealth` and `manageRedirectionAndDDoSProtection` are left out.
  They are network health checks and settings PATCHes with no decision logic.
- `backupDNSConfigurations` and `restoreDNSConfigurations` are left out. They
  are a filesystem JSON dump and its replay.
- The `updateDNS` orchestration, its `message` log and the email summary are
  left out. `sendEmail` is referenced but not defined in `core.js`.
- `setup.js`, `cli.js` and `index.js` are left out. They are prompts, command
  wiring and a re-export.
- A page whose `result` is a string rather than an array is not modelled
  separately. In the source the spread into `domainInfo` succeeds before `.map`
  throws. The model counts every malformed page as a failed page, so
  `domainInfo` does not grow.
- A page whose `result` array holds a non-object entry (such as `null`) is not
  modelled separately. In the source `domainInfo` grows by the whole page
  (core.js:83) before `.map` throws on that entry (core.js:84). The model treats
  the page as failed and leaves `domainInfo` as it was.
- Keyed calls are stateless in the model. If a stale name occurs twice, the
  model's `listRecords(zone)` returns the same listing both times. In the
  source, the second listing is read after the first pass's own DELETEs, so it
  may hold fewer records.
- A page with `result_info` but no `total_pages` is not modelled separately.
  In the source the loop then stops normally after that page. The model gives
  the same result with any `totalPages` smaller than the next page number.
- Numbers in lookup fields and record ids are strings. Field values that are
  JSON `null` or absent are not distinguished from other strings, except for
  the `metadata` of a record.
- Domain names are compared with exact string equality. JavaScript's `includes`
  does the same, so no case folding or trailing-dot normalization is modelled.

=== FILE: challenge.dfy ===
/** The challenge-record pipeline: `getDNSRecords` (core.js:98-117),
    `mergeDNS` (core.js:119-144) and the decision and request body of
    `updateDNSRecord` (core.js:146-182). A record is the positional field
    array the source builds by splitting a line on single spaces and then
    appending lookup results to. */
module Challenge {
  import opened Wrappers
  import opened Fetch
  import opened Text
  import Seqs

  /** The substring that marks a line of `dns --info` output as relevant. */
  const Marker: string := "_acme-challenge"

  /** The literal `mergeDNS` appends when the provider holds no matching record. */
  const CreateTag: string := "create"

  // ---------------------------------------------------------------------------
  // getDNSRecords

  /** The lines of the CLI's `stdout` that contain the marker. */
  function ChallengeLines(stdout: string): (lines: seq<string>)
    ensures forall i :: 0 <= i < |lines| ==> Includes(lines[i], Marker)
    ensures forall l :: l in lines <==> l in Split(stdout, '\n') && Includes(l, Marker)
    ensures forall l :: multiset(lines)[l] == if Includes(l, Marker) then multiset(Split(stdout, '\n'))[l] else 0
  {
    var all := Split(stdout, '\n');
    var lines := Seqs.Filter(all, l => Includes(l, Marker));
    assert forall l :: l in lines <==> l in all && Includes(l, Marker) by {
      forall l { Seqs.FilterMembership(all, l => Includes(l, Marker), l); }
    }
    assert forall l :: multiset(lines)[l] == if Includes(l, Marker) then multiset(all)[l] else 0 by {
      forall l { Seqs.FilterCount(all, l => Includes(l, Marker), l); }
    }
    lines
  }

  /** The marker lines keep the order of `stdout`: the lines before a line
      break come before the lines after it. */
  lemma ChallengeLinesAppend(a: string, b: string)
    ensures ChallengeLines(a + "\n" + b) == ChallengeLines(a) + ChallengeLines(b)
  {
    SplitAppend(a, b, '\n');
    Seqs.FilterAppend(Split(a, '\n'), Split(b, '\n'), l => Includes(l, Marker));
  }

  /** A single line is kept exactly when it contains the marker. */
  lemma ChallengeLinesSingle(w: string)
    requires '\n' !in w
    ensures ChallengeLines(w) == if Includes(w, Marker) then [w] else []
  {
    SplitWord(w, '\n');
  }

  /** A record as `getDNSRecords` produces it from a CLI `stdout`: space-free
      fields that join back to a marker line of that output. */
  predicate FromOutput(r: seq<string>, stdout: string)
  {
    && |r| >= 1
    && (forall k :: 0 <= k < |r| ==> ' ' !in r[k])
    && Includes(Join(r, ' '), Marker)
    && Join(r, ' ') in Split(stdout, '\n')
  }

  /** One domain's share of `getDNSRecords`: each marker line split on single
      spaces, or nothing when the settled request threw or had no `stdout`. */
  function DomainRecords(reply: Result<string, Error>): (records: seq<seq<string>>)
    ensures reply.Err? ==> records == []
    ensures reply.Ok? ==> |records| == |ChallengeLines(reply.value)|
    ensures reply.Ok? ==> forall i :: 0 <= i < |records| ==>
              |records[i]| >= 1 && Join(records[i], ' ') == ChallengeLines(reply.value)[i]
    ensures forall r :: r in records ==> reply.Ok? && FromOutput(r, reply.value)
  {
    match reply
    case Err(_) => []
    case Ok(stdout) =>
      var lines := ChallengeLines(stdout);
      var records := seq(|lines|, i requires 0 <= i < |lines| => Split(lines[i], ' '));
      assert forall r :: r in records ==> FromOutput(r, stdout) by {
        forall r | r in records
          ensures FromOutput(r, stdout)
        {
          var i :| 0 <= i < |lines| && r == records[i];
          Seqs.FilterMembership(Split(stdout, '\n'), l => Includes(l, Marker), lines[i]);
        }
      }
      records
  }

  /** `getDNSRecords`: the records of every domain, in domain order, flattened.
      `dnsInfo(d)` is the settled outcome of the CLI call for domain `d`,
      carrying its `stdout`. */
  function GetDNSRecords(domains: seq<string>, dnsInfo: string -> Result<string, Error>): (records: seq<seq<string>>)
    ensures forall r :: r in records ==> exists d :: d in domains && dnsInfo(d).Ok? && FromOutput(r, dnsInfo(d).value)
    ensures forall d, r :: d in domains && r in DomainRecords(dnsInfo(d)) ==> r in records
  {
    if domains == [] then []
    else
      var here := DomainRecords(dnsInfo(domains[0]));
      var rest := GetDNSRecords(domains[1..], dnsInfo);
      var records := here + rest;
      assert forall r :: r in records ==> exists d :: d in domains && dnsInfo(d).Ok? && FromOutput(r, dnsInfo(d).value) by {
        forall r | r in records
          ensures exists d :: d in domains && dnsInfo(d).Ok? && FromOutput(r, dnsInfo(d).value)
        {
          if r in here {
            assert domains[0] in domains;
          } else {
            var d :| d in domains[1..] && dnsInfo(d).Ok? && FromOutput(r, dnsInfo(d).value);
            assert d in domains;
          }
        }
      }
      assert forall d, r :: d in domains && r in DomainRecords(dnsInfo(d)) ==> r in records by {
        forall d, r | d in domains && r in DomainRecords(dnsInfo(d))
          ensures r in records
        {
          if d != domains[0] {
            assert d in domains[1..];
          }
        }
      }
      records
  }

  /** The records of a list of domains are the records of its parts, in order. */
  lemma {:induction false} GetDNSRecordsAppend(a: seq<string>, b: seq<string>, dnsInfo: string -> Result<string, Error>)
    ensures GetDNSRecords(a + b, dnsInfo) == GetDNSRecords(a, dnsInfo) + GetDNSRecords(b, dnsInfo)
  {
    if a != [] {
      var ab := a + b;
      assert ab[0] == a[0] && ab[1..] == a[1..] + b;
      GetDNSRecordsAppend(a[1..], b, dnsInfo);
      var head := DomainRecords(dnsInfo(a[0]));
      assert GetDNSRecords(ab, dnsInfo) == head + (GetDNSRecords(a[1..], dnsInfo) + GetDNSRecords(b, dnsInfo));
      assert GetDNSRecords(a, dnsInfo) == head + GetDNSRecords(a[1..], dnsInfo);
    } else {
      assert a + b == b;
    }
  }

  /** A single domain contributes exactly its own records; with
      `GetDNSRecordsAppend` this fixes the result of any domain list. */
  lemma GetDNSRecordsSingle(d: string, dnsInfo: string -> Result<string, Error>)
    ensures GetDNSRecords([d], dnsInfo) == DomainRecords(dnsInfo(d))
  {
    assert [d][1..] == [];
    assert GetDNSRecords([d], dnsInfo) == DomainRecords(dnsInfo(d)) + GetDNSRecords([], dnsInfo);
  }

  /** A domain whose CLI request failed contributes nothing, wherever it sits. */
  lemma FailedDomainContributesNothing(a: seq<string>, d: string, b: seq<string>, dnsInfo: string -> Result<string, Error>)
    requires dnsInfo(d).Err?
    ensures GetDNSRecords(a + [d] + b, dnsInfo) == GetDNSRecords(a + b, dnsInfo)
  {
    var single := GetDNSRecords([d], dnsInfo);
    GetDNSRecordsSingle(d, dnsInfo);
    GetDNSRecordsAppend(a + [d], b, dnsInfo);
    GetDNSRecordsAppend(a, [d], dnsInfo);
    GetDNSRecordsAppend(a, b, dnsInfo);
    assert GetDNSRecords(a, dnsInfo) + single == GetDNSRecords(a, dnsInfo);
  }

  /** Nothing is lost or altered: joining a domain's records with single spaces
      gives back exactly its marker lines, in output order. */
  lemma DomainRecordsRejoin(stdout: string)
    ensures var records := DomainRecords(Ok(stdout));
            seq(|records|, i requires 0 <= i < |records| => Join(records[i], ' ')) == ChallengeLines(stdout)
  {
  }

  /** A domain's records are the marker lines cut at single spaces: splitting is
      the only way to obtain space-free fields that join back to the line, so
      two adjacent spaces produce an empty field that shifts every later index. */
  lemma {:induction false} DomainRecordsAreFieldArrays(stdout: string, i: nat, fields: seq<string>)
    requires i < |DomainRecords(Ok(stdout))|
    requires |fields| >= 1 && forall k :: 0 <= k < |fields| ==> ' ' !in fields[k]
    ensures DomainRecords(Ok(stdout))[i] == fields <==> Join(fields, ' ') == ChallengeLines(stdout)[i]
  {
    if Join(fields, ' ') == ChallengeLines(stdout)[i] {
      SplitJoin(fields, ' ');
    }
  }

  // ---------------------------------------------------------------------------
  // mergeDNS

  /** A TXT record as the provider's lookup lists it. */
  datatype TxtEntry = TxtEntry(id: string, content: string)

  /** `record[i]`: the field, or `undefined` past the end. */
  function At(record: seq<string>, i: nat): (v: Option<string>)
    ensures v.Some? <==> i < |record|
  {
    if i < |record| then Some(record[i]) else None
  }

  /** The merge of one record with the settled outcome of its lookup
      (`result` of `GET zones/{record[4]}/dns_records?type=TXT&name=_acme-challenge.{record[5]}`). */
  function Merge(record: seq<string>, lookup: Result<seq<TxtEntry>, Error>): (merged: seq<string>)
    ensures |record| <= |merged| <= |record| + 2
    ensures merged[..|record|] == record
    ensures lookup.Err? <==> merged == record
    ensures lookup == Ok([]) <==> merged == record + [CreateTag]
    ensures lookup.Ok? && lookup.value != [] ==> |merged| == |record| + 2
    ensures lookup.Ok? && lookup.value != [] ==>
              merged[|record|] == lookup.value[0].id && merged[|record| + 1] == lookup.value[0].content
  {
    match lookup
    case Err(_) => record
    case Ok(entries) =>
      if entries == [] then record + [CreateTag]
      else record + [entries[0].id, entries[0].content]
  }

  /** Only the first entry of the lookup matters. */
  lemma MergeIgnoresLaterEntries(record: seq<string>, e: TxtEntry, xs: seq<TxtEntry>, ys: seq<TxtEntry>)
    ensures Merge(record, Ok([e] + xs)) == Merge(record, Ok([e] + ys))
  {
  }

  /** `mergeDNS`: every record merged with its own lookup, keyed by the zone
      (`record[4]`) and name (`record[5]`) the source interpolates into the URL. */
  function MergeDNS(records: seq<seq<string>>, lookup: (Option<string>, Option<string>) -> Result<seq<TxtEntry>, Error>)
    : (merged: seq<seq<string>>)
    ensures |merged| == |records|
    ensures forall i :: 0 <= i < |records| ==> |records[i]| <= |merged[i]| <= |records[i]| + 2
    ensures forall i :: 0 <= i < |records| ==> merged[i][..|records[i]|] == records[i]
    ensures forall i :: 0 <= i < |records| ==>
              (lookup(At(records[i], 4), At(records[i], 5)).Err? <==> merged[i] == records[i])
    ensures forall i :: 0 <= i < |records| ==> merged[i] == Merge(records[i], lookup(At(records[i], 4), At(records[i], 5)))
  {
    var merged := seq(|records|, i requires 0 <= i < |records| => Merge(records[i], lookup(At(records[i], 4), At(records[i], 5))));
    assert forall i :: 0 <= i < |records| ==> |records[i]| <= |merged[i]| <= |records[i]| + 2 && merged[i][..|records[i]|] == records[i] by {
      forall i | 0 <= i < |records|
        ensures |records[i]| <= |merged[i]| <= |records[i]| + 2 && merged[i][..|records[i]|] == records[i]
      {
        var m := Merge(records[i], lookup(At(records[i], 4), At(records[i], 5)));
        assert merged[i] == m;
      }
    }
    merged
  }

  // ---------------------------------------------------------------------------
  // updateDNSRecord

  /** The JSON body of both mutations; an `undefined` field is left out by `JSON.stringify`. */
  datatype Body = Body(recordType: Option<string>, name: Option<string>, content: Option<string>, ttl: int)

  /** The request `updateDNSRecord` issues: `POST zones/{zone}/dns_records`,
      `PUT zones/{zone}/dns_records/{recordId}`, or none. */
  datatype Mutation =
    | Post(zone: Option<string>, body: Body)
    | Put(zone: Option<string>, recordId: Option<string>, body: Body)
    | NoMutation

  /** The body built from a record: type `record[1]`, name `record[0]`,
      content `record[3]`, ttl 1 (automatic). */
  function BodyOf(record: seq<string>): Body
  {
    Body(At(record, 1), At(record, 0), At(record, 3), 1)
  }

  /** `updateDNSRecord`'s choice, using JavaScript's strict equality, for which
      `undefined === undefined`. */
  function Decide(record: seq<string>): (m: Mutation)
    ensures m.Post? <==> At(record, 6) == Some(CreateTag)
    ensures m.Put? <==> At(record, 6) != Some(CreateTag) && At(record, 3) != At(record, 7)
    ensures m.NoMutation? <==> At(record, 6) != Some(CreateTag) && At(record, 3) == At(record, 7)
    ensures m.Put? ==> m.recordId == At(record, 6)
    ensures !m.NoMutation? ==> m.zone == At(record, 4)
    ensures !m.NoMutation? ==> m.body.recordType == At(record, 1) && m.body.name == At(record, 0)
                               && m.body.content == At(record, 3) && m.body.ttl == 1
  {
    var zone := At(record, 4);
    if At(record, 6) == Some(CreateTag) then Post(zone, BodyOf(record))
    else if At(record, 3) != At(record, 7) then Put(zone, At(record, 6), BodyOf(record))
    else NoMutation
  }

  // ---------------------------------------------------------------------------
  // What the pipeline does to one record: merge, then decide.

  /** A record split into exactly six fields is the one shape for which the
      appended fields land at indices 6 and 7, and the decision follows the
      lookup: create when the provider holds nothing, update when its first
      record's content differs, nothing when it is equal. */
  lemma SixFieldRecords(record: seq<string>, lookup: Result<seq<TxtEntry>, Error>)
    requires |record| == 6
    ensures var m := Decide(Merge(record, lookup));
            match lookup
            case Err(_) => m == Put(Some(record[4]), None, BodyOf(record))
            case Ok(entries) =>
              if entries == [] || entries[0].id == CreateTag then m == Post(Some(record[4]), BodyOf(record))
              else if record[3] != entries[0].content then m == Put(Some(record[4]), Some(entries[0].id), BodyOf(record))
              else m == NoMutation
  {
    var merged := Merge(record, lookup);
    assert merged[..6] == record;
    assert forall i :: 0 <= i < 6 ==> merged[i] == record[i];
    assert BodyOf(merged) == BodyOf(record);
  }

  /** For six-field records whose lookup succeeded, the classification keeps
      the record invariants: an update names an existing record whose content
      differs, and no request means the contents already agree. */
  lemma ClassificationInvariant(record: seq<string>, entries: seq<TxtEntry>)
    requires |record| == 6
    ensures var m := Decide(Merge(record, Ok(entries)));
            && (m.Post? ==> entries == [] || entries[0].id == CreateTag)
            && (m.Put? ==> entries != [] && m.recordId == Some(entries[0].id) && entries[0].content != record[3])
            && (m.NoMutation? ==> entries != [] && entries[0].content == record[3])
  {
    SixFieldRecords(record, Ok(entries));
  }

  /** Once the provider holds the desired content, a second run issues no request. */
  lemma SecondRunIssuesNothing(record: seq<string>, id: string, rest: seq<TxtEntry>)
    requires |record| == 6 && id != CreateTag
    ensures Decide(Merge(record, Ok([TxtEntry(id, record[3])] + rest))) == NoMutation
  {
    SixFieldRecords(record, Ok([TxtEntry(id, record[3])] + rest));
  }

  /** A lookup that threw leaves a record of four to six fields unchanged,
      and then the content at index 3 differs from the missing index 7: the
      record is PUT to record id `undefined`. */
  lemma FailedLookupStillPuts(record: seq<string>, e: Error)
    requires 4 <= |record| <= 6
    ensures Decide(Merge(record, Err(e))) == Put(At(record, 4), None, BodyOf(record))
  {
  }

  /** A record of four fields (host, type, ttl, value) never reaches index 6:
      whatever the lookup says, it is PUT to record id `undefined`. */
  lemma FourFieldRecordsNeverPost(record: seq<string>, lookup: Result<seq<TxtEntry>, Error>)
    requires |record| == 4
    ensures var m := Decide(Merge(record, lookup));
            m.Put? && m.recordId == None && m.body == BodyOf(record)
  {
    var merged := Merge(record, lookup);
    assert merged[..4] == record;
    assert forall i :: 0 <= i < 4 ==> merged[i] == record[i];
    assert BodyOf(merged) == BodyOf(record);
  }

  /** The line `_acme-challenge.example.com TXT 300 "tok123"` with no record
      on the provider: four fields, so `create` is appended at index 4 and the
      record is PUT to zone `create` and record id `undefined`. */
  lemma FourFieldLineExample()
    ensures var fields := ["_acme-challenge.example.com", "TXT", "300", "\"tok123\""];
            && Split("_acme-challenge.example.com TXT 300 \"tok123\"", ' ') == fields
            && Decide(Merge(fields, Ok([]))) == Put(Some(CreateTag), None, Body(Some("TXT"), Some(fields[0]), Some("\"tok123\""), 1))
  {
    var fields := ["_acme-challenge.example.com", "TXT", "300", "\"tok123\""];
    assert forall k :: 0 <= k < |fields| ==> ' ' !in fields[k];
    assert Join(fields, ' ') == "_acme-challenge.example.com TXT 300 \"tok123\"";
    SplitJoin(fields, ' ');
  }
}

=== FILE: cleanup.dfy ===
/** `cleanupDNSRecords` (core.js:205-243): for every provider domain the
    control panel no longer lists, delete the records of its zone that carry
    a truthy `metadata.autoGenerated`. */
module Cleanup {
  import opened Wrappers
  import opened Fetch
  import opened Json
  import opened Domains
  import Seqs

  /** A DNS record as the provider's zone listing returns it. */
  datatype DnsRecord = DnsRecord(id: string, name: string, metadata: Option<Json>)

  /** A `DELETE zones/{zone}/dns_records/{record.id}` request. */
  datatype Deletion = Deletion(zone: string, record: DnsRecord)

  /** What a cleanup run issues, and the `domainInfo` it leaves behind. */
  datatype CleanupRun = CleanupRun(deletions: seq<Deletion>, domainInfo: seq<Zone>)

  /** `domainInfo.find(info => info.name === domain).id`: the id of the first
      zone with that name, or `None` where `find` returns `undefined` and
      reading `.id` throws. */
  function ZoneIdOf(domainInfo: seq<Zone>, name: string): (id: Option<string>)
    ensures id.None? <==> forall i :: 0 <= i < |domainInfo| ==> domainInfo[i].name != name
    ensures id.Some? ==> exists i :: 0 <= i < |domainInfo| && domainInfo[i].name == name && domainInfo[i].id == id.value
                                    && forall j :: 0 <= j < i ==> domainInfo[j].name != name
  {
    if domainInfo == [] then None
    else if domainInfo[0].name == name then
      Some(domainInfo[0].id)
    else
      var id := ZoneIdOf(domainInfo[1..], name);
      assert forall i :: 1 <= i < |domainInfo| ==> domainInfo[i] == domainInfo[1..][i - 1];
      if id.Some? then
        var k :| 0 <= k < |domainInfo[1..]| && domainInfo[1..][k].name == name && domainInfo[1..][k].id == id.value
                 && forall j :: 0 <= j < k ==> domainInfo[1..][j].name != name;
        assert domainInfo[k + 1].name == name && domainInfo[k + 1].id == id.value;
        assert forall j :: 0 <= j < k + 1 ==> domainInfo[j].name != name;
        id
      else id
  }

  /** `record.metadata && record.metadata.autoGenerated`: the provenance marker. */
  predicate ShouldDelete(record: DnsRecord)
  {
    Truthy(record.metadata) && Truthy(Member(record.metadata, "autoGenerated"))
  }

  /** The marker holds exactly for records whose metadata is an object with a
      truthy `autoGenerated` member; missing metadata, `null`, or a falsy flag
      (`false`, `0`, `""`, `null`) protects the record. */
  lemma ShouldDeleteIffMarked(record: DnsRecord)
    ensures ShouldDelete(record) <==>
              record.metadata.Some? && record.metadata.value.JObj?
              && "autoGenerated" in record.metadata.value.members
              && Truthy(Some(record.metadata.value.members["autoGenerated"]))
  {
  }

  /** The inner `for (const record of records.result)` loop of one zone: the
      records a DELETE is issued for, in listing order. `deleteOk(zone, id)`
      says whether that DELETE settled without throwing; a throw leaves the
      loop, so the zone's later records are not visited. */
  function DeleteMarked(zone: string, records: seq<DnsRecord>, deleteOk: (string, string) -> bool): (issued: seq<DnsRecord>)
    ensures forall i :: 0 <= i < |issued| ==> ShouldDelete(issued[i])
    ensures issued <= Seqs.Filter(records, ShouldDelete)
    ensures forall i :: 0 <= i < |issued| - 1 ==> deleteOk(zone, issued[i].id)
    ensures issued != Seqs.Filter(records, ShouldDelete) ==> |issued| >= 1 && !deleteOk(zone, issued[|issued| - 1].id)
    ensures (forall i :: 0 <= i < |records| && ShouldDelete(records[i]) ==> deleteOk(zone, records[i].id))
            ==> issued == Seqs.Filter(records, ShouldDelete)
  {
    if records == [] then []
    else
      var keptRest := Seqs.Filter(records[1..], ShouldDelete);
      assert forall i :: 1 <= i < |records| ==> records[i] == records[1..][i - 1];
      if !ShouldDelete(records[0]) then
        assert Seqs.Filter(records, ShouldDelete) == keptRest;
        DeleteMarked(zone, records[1..], deleteOk)
      else
        assert Seqs.Filter(records, ShouldDelete) == [records[0]] + keptRest;
        if !deleteOk(zone, records[0].id) then [records[0]]
        else [records[0]] + DeleteMarked(zone, records[1..], deleteOk)
  }

  /** The deletions of one inactive domain: nothing when its zone is unknown or
      its record listing failed (the outer catch), else its marked records. */
  function DomainDeletions(domain: string, domainInfo: seq<Zone>, listRecords: string -> Result<seq<DnsRecord>, Error>,
                           deleteOk: (string, string) -> bool): (deletions: seq<Deletion>)
    ensures forall x :: x in deletions ==>
              && ShouldDelete(x.record)
              && ZoneIdOf(domainInfo, domain) == Some(x.zone)
              && listRecords(x.zone).Ok? && x.record in listRecords(x.zone).value
    ensures ZoneIdOf(domainInfo, domain).None? ==> deletions == []
    ensures ZoneIdOf(domainInfo, domain).Some? && listRecords(ZoneIdOf(domainInfo, domain).value).Err? ==> deletions == []
    ensures ZoneIdOf(domainInfo, domain).Some? && listRecords(ZoneIdOf(domainInfo, domain).value).Ok? ==>
              var zone := ZoneIdOf(domainInfo, domain).value;
              var issued := DeleteMarked(zone, listRecords(zone).value, deleteOk);
              |deletions| == |issued| && forall i :: 0 <= i < |issued| ==> deletions[i] == Deletion(zone, issued[i])
    ensures ZoneIdOf(domainInfo, domain).Some? && listRecords(ZoneIdOf(domainInfo, domain).value).Ok? ==>
              var zone := ZoneIdOf(domainInfo, domain).value;
              var records := listRecords(zone).value;
              (forall i :: 0 <= i < |records| && ShouldDelete(records[i]) ==> deleteOk(zone, records[i].id)) ==>
                var kept := Seqs.Filter(records, ShouldDelete);
                |deletions| == |kept| && forall i :: 0 <= i < |kept| ==> deletions[i] == Deletion(zone, kept[i])
  {
    match ZoneIdOf(domainInfo, domain)
    case None => []
    case Some(zone) =>
      match listRecords(zone)
      case Err(_) => []
      case Ok(records) =>
        var issued := DeleteMarked(zone, records, deleteOk);
        var kept := Seqs.Filter(records, ShouldDelete);
        assert forall i :: 0 <= i < |issued| ==> issued[i] in records by {
          forall i | 0 <= i < |issued|
            ensures issued[i] in records
          {
            assert issued[i] == kept[i];
            Seqs.FilterMembership(records, ShouldDelete, issued[i]);
          }
        }
        seq(|issued|, i requires 0 <= i < |issued| => Deletion(zone, issued[i]))
  }

  /** `zone` is the zone found for one of the `inactive` domains. */
  predicate ZoneOfSome(zone: string, inactive: seq<string>, domainInfo: seq<Zone>)
  {
    exists d :: d in inactive && ZoneIdOf(domainInfo, d) == Some(zone)
  }

  /** A deletion the outer loop may issue: a marked record, found in the
      listing of a zone that belongs to one of the `inactive` domains. */
  predicate Sound(x: Deletion, inactive: seq<string>, domainInfo: seq<Zone>,
                  listRecords: string -> Result<seq<DnsRecord>, Error>)
  {
    && ShouldDelete(x.record)
    && listRecords(x.zone).Ok? && x.record in listRecords(x.zone).value
    && ZoneOfSome(x.zone, inactive, domainInfo)
  }

  /** The outer `for (const domain of inactiveDomains)` loop; a failure inside
      one domain is caught and the loop moves on to the next. */
  function CleanupDomains(inactive: seq<string>, domainInfo: seq<Zone>, listRecords: string -> Result<seq<DnsRecord>, Error>,
                          deleteOk: (string, string) -> bool): (deletions: seq<Deletion>)
    ensures forall x :: x in deletions ==> Sound(x, inactive, domainInfo, listRecords)
  {
    if inactive == [] then []
    else
      var here := DomainDeletions(inactive[0], domainInfo, listRecords, deleteOk);
      var rest := CleanupDomains(inactive[1..], domainInfo, listRecords, deleteOk);
      var deletions := here + rest;
      assert forall x :: x in deletions ==> Sound(x, inactive, domainInfo, listRecords) by {
        forall x | x in deletions
          ensures Sound(x, inactive, domainInfo, listRecords)
        {
          if x in here {
            assert inactive[0] in inactive;
          } else {
            assert Sound(x, inactive[1..], domainInfo, listRecords);
            var d :| d in inactive[1..] && ZoneIdOf(domainInfo, d) == Some(x.zone);
            assert d in inactive;
          }
        }
      }
      deletions
  }

  /** `cleanupDNSRecords`: read both inventories, take the provider domains the
      control panel does not list, and delete their marked records. */
  function CleanupDNSRecords(panel: Result<seq<PanelDomain>, Error>, pages: seq<Result<ZonePage, Error>>,
                             domainInfo: seq<Zone>, listRecords: string -> Result<seq<DnsRecord>, Error>,
                             deleteOk: (string, string) -> bool): (run: CleanupRun)
    ensures forall x :: x in run.deletions ==> ShouldDelete(x.record)
    ensures forall x :: x in run.deletions ==>
              exists d :: d in GrabCloudflareDomains(pages, domainInfo).domains && d !in GrabDomainNames(panel)
                          && ZoneIdOf(run.domainInfo, d) == Some(x.zone)
    ensures forall x :: x in run.deletions ==> listRecords(x.zone).Ok? && x.record in listRecords(x.zone).value
    ensures exists n: nat :: Proceeds(pages, n) && Halts(pages, n) && run.domainInfo == domainInfo + ZonesRead(pages, n)
  {
    var active := GrabDomainNames(panel);
    var harvest := GrabCloudflareDomains(pages, domainInfo);
    var inactive := StaleDomains(harvest.domains, active);
    CleanupRun(CleanupDomains(inactive, harvest.domainInfo, listRecords, deleteOk), harvest.domainInfo)
  }

  // ---------------------------------------------------------------------------
  // Isolation and completeness of the outer loop.

  /** Each domain's deletions depend on that domain alone: the run over a
      concatenation is the runs over its parts, so a failure caught for one
      domain leaves every other domain's deletions as they would be. */
  lemma {:induction false} CleanupDomainsAppend(a: seq<string>, b: seq<string>, domainInfo: seq<Zone>,
                                                listRecords: string -> Result<seq<DnsRecord>, Error>,
                                                deleteOk: (string, string) -> bool)
    ensures CleanupDomains(a + b, domainInfo, listRecords, deleteOk)
            == CleanupDomains(a, domainInfo, listRecords, deleteOk) + CleanupDomains(b, domainInfo, listRecords, deleteOk)
  {
    if a == [] {
      assert a + b == b;
    } else {
      var ab := a + b;
      assert ab[0] == a[0] && ab[1..] == a[1..] + b;
      CleanupDomainsAppend(a[1..], b, domainInfo, listRecords, deleteOk);
      var here := DomainDeletions(a[0], domainInfo, listRecords, deleteOk);
      var restA := CleanupDomains(a[1..], domainInfo, listRecords, deleteOk);
      var all := CleanupDomains(b, domainInfo, listRecords, deleteOk);
      calc {
        CleanupDomains(ab, domainInfo, listRecords, deleteOk);
        here + CleanupDomains(a[1..] + b, domainInfo, listRecords, deleteOk);
        here + (restA + all);
        (here + restA) + all;
        CleanupDomains(a, domainInfo, listRecords, deleteOk) + all;
      }
    }
  }


  /** A single inactive domain yields exactly its own deletions. */
  lemma CleanupDomainsSingle(d: string, domainInfo: seq<Zone>, listRecords: string -> Result<seq<DnsRecord>, Error>,
                             deleteOk: (string, string) -> bool)
    ensures CleanupDomains([d], domainInfo, listRecords, deleteOk) == DomainDeletions(d, domainInfo, listRecords, deleteOk)
  {
    assert [d][1..] == [];
    assert CleanupDomains([d], domainInfo, listRecords, deleteOk)
           == DomainDeletions(d, domainInfo, listRecords, deleteOk) + CleanupDomains([], domainInfo, listRecords, deleteOk);
  }

  /** Reference definition of a cleanup in which nothing fails after the zone
      listing: for every inactive domain whose zone is known and listed, one
      deletion per marked record of that zone, in listing order. */
  function MarkedDeletions(inactive: seq<string>, domainInfo: seq<Zone>,
                           listRecords: string -> Result<seq<DnsRecord>, Error>): seq<Deletion>
  {
    if inactive == [] then []
    else
      var here :=
        match ZoneIdOf(domainInfo, inactive[0])
        case None => []
        case Some(zone) =>
          match listRecords(zone)
          case Err(_) => []
          case Ok(records) =>
            var kept := Seqs.Filter(records, ShouldDelete);
            seq(|kept|, i requires 0 <= i < |kept| => Deletion(zone, kept[i]));
      here + MarkedDeletions(inactive[1..], domainInfo, listRecords)
  }

  /** Every DELETE of a marked listed record succeeds. */
  ghost predicate DeletesSucceed(listRecords: string -> Result<seq<DnsRecord>, Error>, deleteOk: (string, string) -> bool)
  {
    forall zone, r :: listRecords(zone).Ok? && r in listRecords(zone).value && ShouldDelete(r) ==> deleteOk(zone, r.id)
  }

  /** When every DELETE succeeds, the outer loop deletes exactly the marked
      records of every inactive domain whose zone is known and listed. */
  lemma {:induction false} CleanupDomainsComplete(inactive: seq<string>, domainInfo: seq<Zone>,
                                                  listRecords: string -> Result<seq<DnsRecord>, Error>,
                                                  deleteOk: (string, string) -> bool)
    requires DeletesSucceed(listRecords, deleteOk)
    ensures CleanupDomains(inactive, domainInfo, listRecords, deleteOk) == MarkedDeletions(inactive, domainInfo, listRecords)
  {
    if inactive != [] {
      CleanupDomainsComplete(inactive[1..], domainInfo, listRecords, deleteOk);
      var d := inactive[0];
      var here := DomainDeletions(d, domainInfo, listRecords, deleteOk);
      match ZoneIdOf(domainInfo, d)
      case None =>
      case Some(zone) =>
        match listRecords(zone)
        case Err(_) =>
        case Ok(records) =>
          var kept := Seqs.Filter(records, ShouldDelete);
          assert forall i :: 0 <= i < |records| && ShouldDelete(records[i]) ==> deleteOk(zone, records[i].id);
          assert |here| == |kept| && forall i :: 0 <= i < |kept| ==> here[i] == Deletion(zone, kept[i]);
    }
  }

  /** When every DELETE succeeds, a cleanup run deletes exactly the marked
      records of the zones of the provider domains the control panel does not
      list. */
  lemma CleanupDNSRecordsComplete(panel: Result<seq<PanelDomain>, Error>, pages: seq<Result<ZonePage, Error>>,
                                  domainInfo: seq<Zone>, listRecords: string -> Result<seq<DnsRecord>, Error>,
                                  deleteOk: (string, string) -> bool)
    requires DeletesSucceed(listRecords, deleteOk)
    ensures var harvest := GrabCloudflareDomains(pages, domainInfo);
            CleanupDNSRecords(panel, pages, domainInfo, listRecords, deleteOk).deletions
            == MarkedDeletions(StaleDomains(harvest.domains, GrabDomainNames(panel)), harvest.domainInfo, listRecords)
  {
    var harvest := GrabCloudflareDomains(pages, domainInfo);
    CleanupDomainsComplete(StaleDomains(harvest.domains, GrabDomainNames(panel)), harvest.domainInfo, listRecords, deleteOk);
  }

  /** Fail-open: when the control panel listing fails, every provider domain
      counts as inactive and is cleaned up. */
  lemma PanelFailureCleansEveryDomain(panel: Result<seq<PanelDomain>, Error>, pages: seq<Result<ZonePage, Error>>,
                                      domainInfo: seq<Zone>, listRecords: string -> Result<seq<DnsRecord>, Error>,
                                      deleteOk: (string, string) -> bool)
    requires panel.Err?
    ensures var harvest := GrabCloudflareDomains(pages, domainInfo);
            && StaleDomains(harvest.domains, GrabDomainNames(panel)) == harvest.domains
            && CleanupDNSRecords(panel, pages, domainInfo, listRecords, deleteOk).deletions
               == CleanupDomains(harvest.domains, harvest.domainInfo, listRecords, deleteOk)
  {
  }
}

=== FILE: domains.dfy ===
/** Domain inventories and the domain-set logic: `grabDomainNames`
    (core.js:48-63), `grabCloudflareDomains` (core.js:65-91), `filterDomains`
    (core.js:93-96) and the `inactiveDomains` filter of `cleanupDNSRecords`
    (core.js:209). Each remote call is replaced by its settled outcome. */
module Domains {
  import opened Wrappers
  import opened Fetch
  import Seqs

  /** An entry of the control panel's `GET /api/v2/domains` array. */
  datatype PanelDomain = PanelDomain(name: string)

  /** An entry of a zone-listing page: the zone's id and its domain name. */
  datatype Zone = Zone(id: string, name: string)

  /** The envelope of one zone-listing page: `result_info.total_pages` and `result`. */
  datatype ZonePage = ZonePage(totalPages: int, result: seq<Zone>)

  /** What `grabCloudflareDomains` returns together with the process-wide
      `domainInfo` list it appends to. */
  datatype Harvest = Harvest(domains: seq<string>, domainInfo: seq<Zone>)

  /** The `name` of every zone, in order. */
  function Names(zones: seq<Zone>): (names: seq<string>)
    ensures |names| == |zones|
    ensures forall i :: 0 <= i < |zones| ==> names[i] == zones[i].name
  {
    seq(|zones|, i requires 0 <= i < |zones| => zones[i].name)
  }

  /** `grabDomainNames`: the `name` of each control-panel domain, or the empty
      list when the settled request threw (after its own retries). */
  function GrabDomainNames(listing: Result<seq<PanelDomain>, Error>): (names: seq<string>)
    ensures listing.Err? ==> names == []
    ensures listing.Ok? ==> |names| == |listing.value|
    ensures listing.Ok? ==> forall i :: 0 <= i < |names| ==> names[i] == listing.value[i].name
  {
    match listing
    case Err(_) => []
    case Ok(ds) => seq(|ds|, i requires 0 <= i < |ds| => ds[i].name)
  }

  // ---------------------------------------------------------------------------
  // Pagination. `pages[p - 1]` is the settled outcome of requesting page `p`
  // (a body lacking `result_info` or `result` is an `Err`); a page past the
  // end of `pages` fails as `Unanswered`.

  function PageAt(pages: seq<Result<ZonePage, Error>>, page: int): Result<ZonePage, Error>
  {
    if 1 <= page <= |pages| then pages[page - 1] else Err(Unanswered)
  }

  /** The `totalPages` in force after `k` pages were read: 1 before any page,
      then the value re-read from the latest page. */
  function TotalAfter(pages: seq<Result<ZonePage, Error>>, k: nat): int
  {
    if k == 0 then 1
    else match PageAt(pages, k)
      case Ok(p) => p.totalPages
      case Err(_) => 0
  }

  /** Pages 1..n were all requested (each was within the total in force before
      it) and all succeeded. */
  predicate Proceeds(pages: seq<Result<ZonePage, Error>>, n: nat)
  {
    forall k: nat :: k < n ==> k + 1 <= TotalAfter(pages, k) && PageAt(pages, k + 1).Ok?
  }

  /** After n pages the loop stops: page n + 1 is beyond the total, or its request failed. */
  predicate Halts(pages: seq<Result<ZonePage, Error>>, n: nat)
  {
    n + 1 > TotalAfter(pages, n) || PageAt(pages, n + 1).Err?
  }

  /** The zones of pages 1..n, concatenated in page order. */
  function ZonesRead(pages: seq<Result<ZonePage, Error>>, n: nat): seq<Zone>
  {
    if n == 0 then []
    else ZonesRead(pages, n - 1) + (match PageAt(pages, n) case Ok(p) => p.result case Err(_) => [])
  }

  /** The `while (page <= totalPages)` loop from `page` on, with `zones`
      gathered so far; a failed page ends it through the catch. */
  function Paginate(pages: seq<Result<ZonePage, Error>>, page: nat, totalPages: int, zones: seq<Zone>): (r: seq<Zone>)
    requires 1 <= page
    requires Proceeds(pages, page - 1)
    requires totalPages == TotalAfter(pages, page - 1)
    requires zones == ZonesRead(pages, page - 1)
    ensures exists n: nat :: page - 1 <= n && Proceeds(pages, n) && Halts(pages, n) && r == ZonesRead(pages, n)
    decreases |pages| + 1 - page
  {
    if page > totalPages then
      assert Halts(pages, page - 1);
      zones
    else match PageAt(pages, page)
      case Err(_) =>
        assert Halts(pages, page - 1);
        zones
      case Ok(p) =>
        assert Proceeds(pages, page) by {
          forall k: nat | k < page
            ensures k + 1 <= TotalAfter(pages, k) && PageAt(pages, k + 1).Ok?
          {
            if k == page - 1 {
              assert TotalAfter(pages, k) == totalPages;
            }
          }
        }
        Paginate(pages, page + 1, p.totalPages, zones + p.result)
  }

  /** `grabCloudflareDomains`: the zone names of every page read, in page
      order, and the same zones appended to `domainInfo`. */
  function GrabCloudflareDomains(pages: seq<Result<ZonePage, Error>>, domainInfo: seq<Zone>): (h: Harvest)
    ensures exists n: nat :: Proceeds(pages, n) && Halts(pages, n)
                             && h.domains == Names(ZonesRead(pages, n))
                             && h.domainInfo == domainInfo + ZonesRead(pages, n)
  {
    var zones := Paginate(pages, 1, 1, []);
    Harvest(Names(zones), domainInfo + zones)
  }

  /** The number of pages read is determined by the responses: at most one
      `n` both proceeds and halts, so the postcondition of
      `GrabCloudflareDomains` fixes its result. */
  lemma PagesReadUnique(pages: seq<Result<ZonePage, Error>>, n: nat, m: nat)
    requires Proceeds(pages, n) && Halts(pages, n)
    requires Proceeds(pages, m) && Halts(pages, m)
    ensures n == m
  {
    NoHaltBefore(pages, n, m);
    NoHaltBefore(pages, m, n);
  }

  /** Pages 1..m all proceeding means the loop did not stop after any earlier page. */
  lemma NoHaltBefore(pages: seq<Result<ZonePage, Error>>, m: nat, n: nat)
    requires Proceeds(pages, m)
    ensures n < m ==> !Halts(pages, n)
  {
    if n < m {
      assert n + 1 <= TotalAfter(pages, n) && PageAt(pages, n + 1).Ok?;
    }
  }

  /** Page 1 is always requested; when it fails nothing is gathered. */
  lemma FirstPageFailureGathersNothing(pages: seq<Result<ZonePage, Error>>, domainInfo: seq<Zone>)
    requires PageAt(pages, 1).Err?
    ensures GrabCloudflareDomains(pages, domainInfo) == Harvest([], domainInfo)
  {
    var h := GrabCloudflareDomains(pages, domainInfo);
    var n: nat :| Proceeds(pages, n) && Halts(pages, n)
                  && h.domains == Names(ZonesRead(pages, n))
                  && h.domainInfo == domainInfo + ZonesRead(pages, n);
    assert Halts(pages, 0);
    PagesReadUnique(pages, n, 0);
    assert domainInfo + [] == domainInfo;
  }

  /** tests/index.test.js:20-31: a single page holding one zone named
      `example.com` with `total_pages: 1` yields `['example.com']`. */
  lemma SinglePageListing(domainInfo: seq<Zone>)
    ensures GrabCloudflareDomains([Ok(ZonePage(1, [Zone("zone-id", "example.com")]))], domainInfo).domains == ["example.com"]
  {
    var pages := [Ok(ZonePage(1, [Zone("zone-id", "example.com")]))];
    var h := GrabCloudflareDomains(pages, domainInfo);
    var n: nat :| Proceeds(pages, n) && Halts(pages, n) && h.domains == Names(ZonesRead(pages, n));
    assert Proceeds(pages, 1) && Halts(pages, 1);
    PagesReadUnique(pages, n, 1);
    assert ZonesRead(pages, 1) == [Zone("zone-id", "example.com")];
  }

  /** tests/index.test.js:9-17: one control-panel domain `example.com`. */
  lemma PanelListing()
    ensures GrabDomainNames(Ok([PanelDomain("example.com")])) == ["example.com"]
  {
  }

  // ---------------------------------------------------------------------------
  // Domain-set logic.

  /** `filterDomains`: the provider's domains that the control panel also lists. */
  function FilterDomains(cloudflare: seq<string>, panel: seq<string>): (r: seq<string>)
    ensures forall d :: d in r <==> d in cloudflare && d in panel
    ensures forall d :: multiset(r)[d] == if d in panel then multiset(cloudflare)[d] else 0
    ensures cloudflare == [] || panel == [] ==> r == []
  {
    var r := Seqs.Filter(cloudflare, d => d in panel);
    assert forall d :: d in r <==> d in cloudflare && d in panel by {
      forall d { Seqs.FilterMembership(cloudflare, d => d in panel, d); }
    }
    assert forall d :: multiset(r)[d] == if d in panel then multiset(cloudflare)[d] else 0 by {
      forall d { Seqs.FilterCount(cloudflare, d => d in panel, d); }
    }
    r
  }

  /** The `inactiveDomains` of `cleanupDNSRecords`: the provider's domains that
      the control panel does not list. */
  function StaleDomains(cloudflare: seq<string>, active: seq<string>): (r: seq<string>)
    ensures forall d :: d in r <==> d in cloudflare && d !in active
    ensures forall d :: multiset(r)[d] == if d in active then 0 else multiset(cloudflare)[d]
    ensures active == [] ==> r == cloudflare
  {
    var r := Seqs.Filter(cloudflare, d => d !in active);
    assert forall d :: d in r <==> d in cloudflare && d !in active by {
      forall d { Seqs.FilterMembership(cloudflare, d => d !in active, d); }
    }
    assert forall d :: multiset(r)[d] == if d in active then 0 else multiset(cloudflare)[d] by {
      forall d { Seqs.FilterCount(cloudflare, d => d !in active, d); }
    }
    if active == [] then
      Seqs.FilterAll(cloudflare, d => d !in active);
      r
    else r
  }

  /** `filterDomains` keeps the provider's order: it commutes with concatenation. */
  lemma {:induction false} FilterDomainsAppend(a: seq<string>, b: seq<string>, panel: seq<string>)
    ensures FilterDomains(a + b, panel) == FilterDomains(a, panel) + FilterDomains(b, panel)
  {
    Seqs.FilterAppend(a, b, d => d in panel);
  }

  /** `inactiveDomains` keeps the provider's order as well. */
  lemma {:induction false} StaleDomainsAppend(a: seq<string>, b: seq<string>, active: seq<string>)
    ensures StaleDomains(a + b, active) == StaleDomains(a, active) + StaleDomains(b, active)
  {
    Seqs.FilterAppend(a, b, d => d !in active);
  }

  /** Given the same two lists, `filterDomains` and the cleanup's
      `inactiveDomains` split the provider's list in two: no name lands in
      both, and together they hold every entry exactly as often as the
      provider's list does. */
  lemma PartitionCloudflareList(cloudflare: seq<string>, panel: seq<string>)
    ensures forall d :: !(d in FilterDomains(cloudflare, panel) && d in StaleDomains(cloudflare, panel))
    ensures multiset(FilterDomains(cloudflare, panel)) + multiset(StaleDomains(cloudflare, panel)) == multiset(cloudflare)
    ensures |FilterDomains(cloudflare, panel)| + |StaleDomains(cloudflare, panel)| == |cloudflare|
  {
    var live, stale := FilterDomains(cloudflare, panel), StaleDomains(cloudflare, panel);
    assert multiset(live) + multiset(stale) == multiset(cloudflare) by {
      forall d
        ensures (multiset(live) + multiset(stale))[d] == multiset(cloudflare)[d]
      {
      }
    }
    assert |multiset(live) + multiset(stale)| == |multiset(cloudflare)|;
  }

  /** As sets of names the intersection does not depend on which list comes first. */
  lemma IntersectionSymmetric(a: seq<string>, b: seq<string>)
    ensures forall d :: d in FilterDomains(a, b) <==> d in FilterDomains(b, a)
  {
  }

  /** Provider domains a, b, c with active domains a, b: exactly c is stale. */
  lemma CleanupScopeExample()
    ensures StaleDomains(["a.com", "b.com", "c.com"], ["a.com", "b.com"]) == ["c.com"]
  {
    var cf, active := ["a.com", "b.com", "c.com"], ["a.com", "b.com"];
    assert cf == ["a.com", "b.com"] + ["c.com"];
    StaleDomainsAppend(["a.com", "b.com"], ["c.com"], active);
    assert ["a.com", "b.com"] == ["a.com"] + ["b.com"];
    StaleDomainsAppend(["a.com"], ["b.com"], active);
  }
}

=== FILE: fetch.dfy ===
/** `fetchWithRetry` (core.js:35-46): a bounded retry loop over HTTP attempts.
    The network is replaced by a script: `script[i]` is what the i-th attempt
    produces, and an attempt past the end of the script fails as `Unanswered`. */
module Fetch {
  import opened Wrappers

  /** Why an attempt or a call failed. */
  datatype Error =
    | NetworkError(message: string)   // `fetch` itself rejected
    | HttpError(status: int)          // the response was not `ok`
    | MalformedBody(message: string)  // `json()` rejected, or an expected field was missing
    | Unanswered                      // the script holds no outcome for this request

  /** What one `fetch(url, options)` produced; `body` is what `response.json()` then gave. */
  datatype Attempt<T> =
    | Rejected(error: Error)
    | Responded(ok: bool, status: int, body: Result<T, Error>)

  /** How a `fetchWithRetry` call settles. `Undefined` is the value of an async
      function whose loop ran zero times. */
  datatype Settled<T> = Resolved(value: T) | Thrown(error: Error) | Undefined

  /** Milliseconds waited after the i-th failed attempt is `BaseDelay * (i + 1)`. */
  const BaseDelay: int := 1000

  function AttemptAt<T>(script: seq<Attempt<T>>, i: nat): Attempt<T>
  {
    if i < |script| then script[i] else Rejected(Unanswered)
  }

  /** The value the try block returns, or the error its catch receives: a
      response that is not `ok` is turned into an error before its body is read. */
  function Outcome<T>(a: Attempt<T>): Result<T, Error>
  {
    match a
    case Rejected(e) => Err(e)
    case Responded(ok, status, body) => if ok then body else Err(HttpError(status))
  }

  predicate Succeeds<T>(a: Attempt<T>)
  {
    Outcome(a).Ok?
  }

  /** The waits after the first `n` failed attempts: 1000, 2000, ..., 1000 * n. */
  function Backoff(n: nat): (waits: seq<int>)
    ensures |waits| == n
  {
    seq(n, j => BaseDelay * (j + 1))
  }

  /** The retry loop. Besides how the call settles it reports how many attempts
      were made and the delays slept between them. `retries` is a parameter;
      every caller in core.js leaves it at its default of 3. */
  method FetchWithRetry<T>(script: seq<Attempt<T>>, retries: int)
    returns (settled: Settled<T>, attempts: nat, waits: seq<int>)
    ensures retries <= 0 ==> settled == Undefined && attempts == 0 && waits == []
    ensures retries > 0 ==> 1 <= attempts <= retries && !settled.Undefined?
    ensures waits == Backoff(if attempts == 0 then 0 else attempts - 1)
    ensures forall j: nat :: j + 1 < attempts ==> !Succeeds(AttemptAt(script, j))
    ensures settled.Resolved? ==> attempts >= 1 && Outcome(AttemptAt(script, attempts - 1)) == Ok(settled.value)
    ensures settled.Thrown? ==> attempts == retries && Outcome(AttemptAt(script, attempts - 1)) == Err(settled.error)
    ensures settled.Thrown? <==> retries > 0 && forall j: nat :: j < retries ==> !Succeeds(AttemptAt(script, j))
  {
    settled := Undefined;
    attempts := 0;
    waits := [];
    var i := 0;
    while i < retries
      invariant 0 <= i && attempts == i
      invariant retries > 0 ==> i < retries
      invariant retries <= 0 ==> i == 0
      invariant waits == Backoff(i)
      invariant forall j: nat :: j < i ==> !Succeeds(AttemptAt(script, j))
      invariant settled == Undefined
    {
      attempts := attempts + 1;
      var outcome := Outcome(AttemptAt(script, i));
      if outcome.Ok? {
        settled := Resolved(outcome.value);
        return;
      }
      if i == retries - 1 {
        settled := Thrown(outcome.error);
        return;
      }
      waits := waits + [BaseDelay * (i + 1)];
      i := i + 1;
    }
  }
}

=== FILE: json.dfy ===
/** The slice of JavaScript value semantics the source depends on when it
    inspects parsed JSON: property access and truthiness. */
module Json {
  import opened Wrappers

  /** A parsed JSON value. Numbers are reals, so every JSON number, fractional
      ones included, is representable; JSON cannot produce `NaN`. */
  datatype Json =
    | JNull
    | JBool(b: bool)
    | JNum(x: real)
    | JStr(s: string)
    | JArr(items: seq<Json>)
    | JObj(members: map<string, Json>)

  /** JavaScript truthiness of a property read; `None` is `undefined`. */
  predicate Truthy(v: Option<Json>)
  {
    match v
    case None => false
    case Some(JNull) => false
    case Some(JBool(b)) => b
    case Some(JNum(x)) => x != 0.0
    case Some(JStr(s)) => s != ""
    case Some(JArr(_)) => true
    case Some(JObj(_)) => true
  }

  /** `v[key]` for a value the source has already found truthy, for the one
      key the source reads, `autoGenerated`: an object yields its member or
      `undefined`; a JSON string, number, boolean or array has no property of
      that name and also yields `undefined`. Keys that such values do carry,
      like `length`, are outside this model. */
  function Member(v: Option<Json>, key: string): (r: Option<Json>)
    ensures r.Some? <==> v.Some? && v.value.JObj? && key in v.value.members
    ensures r.Some? ==> r.value == v.value.members[key]
  {
    match v
    case Some(JObj(m)) => if key in m then Some(m[key]) else None
    case _ => None
  }

  /** Exactly JavaScript's falsy values reachable from JSON are falsy:
      `undefined`, `null`, `false`, `0` and the empty string. */
  lemma FalsyValues(v: Option<Json>)
    ensures !Truthy(v) <==> v == None || v == Some(JNull) || v == Some(JBool(false))
                            || v == Some(JNum(0.0)) || v == Some(JStr(""))
  {
  }
}

=== FILE: seqs.dfy ===
/** Sequence helpers mirroring the JavaScript array methods the source relies on. */
module Seqs {

  /** `Array.prototype.filter`: the elements of `s` satisfying `p`, in order,
      repetitions kept. */
  function Filter<T>(s: seq<T>, p: T -> bool): (r: seq<T>)
    ensures |r| <= |s|
    ensures forall i :: 0 <= i < |r| ==> p(r[i])
  {
    if s == [] then []
    else
      var rest := Filter(s[1..], p);
      if p(s[0]) then [s[0]] + rest else rest
  }

  /** An element survives the filter exactly when it occurs in `s` and satisfies `p`. */
  lemma {:induction false} FilterMembership<T>(s: seq<T>, p: T -> bool, x: T)
    ensures x in Filter(s, p) <==> x in s && p(x)
  {
    if s != [] {
      FilterMembership(s[1..], p, x);
      assert s == [s[0]] + s[1..];
    }
  }

  /** Every element keeps all of its occurrences when it satisfies `p` and loses
      all of them otherwise. */
  lemma {:induction false} FilterCount<T>(s: seq<T>, p: T -> bool, x: T)
    ensures multiset(Filter(s, p))[x] == if p(x) then multiset(s)[x] else 0
  {
    if s != [] {
      FilterCount(s[1..], p, x);
      assert s == [s[0]] + s[1..];
    }
  }

  /** A predicate every element satisfies keeps the whole sequence. */
  lemma {:induction false} FilterAll<T>(s: seq<T>, p: T -> bool)
    requires forall i :: 0 <= i < |s| ==> p(s[i])
    ensures Filter(s, p) == s
  {
    if s != [] {
      FilterAll(s[1..], p);
    }
  }

  /** Filtering distributes over concatenation, so the result keeps the order of `s`. */
  lemma {:induction false} FilterAppend<T>(a: seq<T>, b: seq<T>, p: T -> bool)
    ensures Filter(a + b, p) == Filter(a, p) + Filter(b, p)
  {
    if a == [] {
      assert a + b == b;
    } else {
      assert (a + b)[1..] == a[1..] + b;
      FilterAppend(a[1..], b, p);
    }
  }
}

=== FILE: text.dfy ===
/** The two string operations the source applies to command output:
    `String.prototype.split` with a one-character separator and
    `String.prototype.includes`. */
module Text {

  /** `parts.join(sep)` for a one-character separator. */
  function Join(parts: seq<string>, sep: char): string
  {
    if parts == [] then ""
    else if |parts| == 1 then parts[0]
    else parts[0] + [sep] + Join(parts[1..], sep)
  }

  /** `s.split(sep)` for a one-character separator: the maximal
      separator-free pieces between occurrences of `sep`. Like JavaScript it
      never returns an empty array (`"".split("\n")` is `[""]`) and keeps
      empty pieces between adjacent separators. */
  function Split(s: string, sep: char): (parts: seq<string>)
    ensures |parts| >= 1
    ensures forall i :: 0 <= i < |parts| ==> sep !in parts[i]
    ensures Join(parts, sep) == s
    decreases |s|
  {
    if s == [] then [""]
    else if s[0] == sep then
      var rest := Split(s[1..], sep);
      assert ([""] + rest)[1..] == rest;
      assert s == [sep] + s[1..];
      [""] + rest
    else
      var rest := Split(s[1..], sep);
      var parts := [[s[0]] + rest[0]] + rest[1..];
      assert |rest| > 1 ==> Join(rest, sep) == rest[0] + [sep] + Join(rest[1..], sep);
      assert parts[1..] == rest[1..];
      assert s == [s[0]] + s[1..];
      parts
  }

  /** Splitting a separator-free word followed by `t` glues the word onto the
      first piece of `t`. */
  lemma {:induction false} SplitPrefix(w: string, t: string, sep: char)
    requires sep !in w
    ensures Split(w + t, sep) == [w + Split(t, sep)[0]] + Split(t, sep)[1..]
    decreases |w|
  {
    if w == [] {
      var st := Split(t, sep);
      assert w + t == t && w + st[0] == st[0];
      assert st == [st[0]] + st[1..];
    } else {
      var st := Split(t, sep);
      assert (w + t)[0] == w[0] && w[0] != sep;
      assert (w + t)[1..] == w[1..] + t;
      SplitPrefix(w[1..], t, sep);
      var rest := Split(w[1..] + t, sep);
      assert rest[0] == w[1..] + st[0] && rest[1..] == st[1..];
      assert Split(w + t, sep) == [[w[0]] + rest[0]] + rest[1..];
      assert [w[0]] + (w[1..] + st[0]) == w + st[0];
    }
  }

  /** The other half of the round trip: joining separator-free pieces and
      splitting again gives the pieces back, so `Split` is the only way to cut
      a string into separator-free pieces. */
  lemma {:induction false} SplitJoin(parts: seq<string>, sep: char)
    requires |parts| >= 1
    requires forall i :: 0 <= i < |parts| ==> sep !in parts[i]
    ensures Split(Join(parts, sep), sep) == parts
  {
    if |parts| == 1 {
      SplitWord(parts[0], sep);
    } else {
      var w, rest := parts[0], parts[1..];
      var tail := Join(rest, sep);
      var t := [sep] + tail;
      SplitJoin(rest, sep);
      SplitAfterSeparator(tail, sep);
      assert Split(t, sep) == [""] + rest;
      SplitPrefix(w, t, sep);
      assert Split(w + t, sep) == [w + ""] + rest;
      assert w + "" == w;
      assert Join(parts, sep) == w + [sep] + tail;
      assert w + [sep] + tail == w + t;
      assert parts == [w] + rest;
    }
  }

  /** A separator-free word is a single piece. */
  lemma SplitWord(w: string, sep: char)
    requires sep !in w
    ensures Split(w, sep) == [w]
  {
    SplitPrefix(w, "", sep);
    assert w + "" == w;
  }

  /** A leading separator contributes an empty first piece. */
  lemma SplitAfterSeparator(t: string, sep: char)
    ensures Split([sep] + t, sep) == [""] + Split(t, sep)
  {
    assert ([sep] + t)[1..] == t;
  }

  /** Splitting at one separator occurrence: the pieces of the text before it
      followed by the pieces of the text after it. */
  lemma {:induction false} SplitAppend(a: string, b: string, sep: char)
    ensures Split(a + [sep] + b, sep) == Split(a, sep) + Split(b, sep)
    decreases |a|
  {
    if a == [] {
      assert a + [sep] + b == [sep] + b;
      SplitAfterSeparator(b, sep);
    } else {
      var s := a + [sep] + b;
      assert s[0] == a[0] && s[1..] == a[1..] + [sep] + b;
      SplitAppend(a[1..], b, sep);
      var ra, sb := Split(a[1..], sep), Split(b, sep);
      var rest := Split(s[1..], sep);
      assert rest == ra + sb;
      if a[0] == sep {
        assert Split(s, sep) == [""] + rest;
        assert Split(a, sep) == [""] + ra;
      } else {
        assert Split(s, sep) == [[a[0]] + rest[0]] + rest[1..];
        assert rest[0] == ra[0] && rest[1..] == ra[1..] + sb;
        assert Split(a, sep) == [[a[0]] + ra[0]] + ra[1..];
      }
    }
  }

  /** `pat` occurs in `s` starting at index `i`. */
  predicate OccursAt(s: string, pat: string, i: int)
  {
    0 <= i && i + |pat| <= |s| && s[i..i + |pat|] == pat
  }

  /** `s.includes(pat)`: some window of `s` equals `pat`. */
  function Includes(s: string, pat: string): (r: bool)
    ensures r <==> exists i :: OccursAt(s, pat, i)
    decreases |s|
  {
    if |pat| > |s| then false
    else if s[..|pat|] == pat then
      assert OccursAt(s, pat, 0);
      true
    else
      var r := Includes(s[1..], pat);
      assert forall i :: OccursAt(s[1..], pat, i) <==> OccursAt(s, pat, i + 1);
      assert !OccursAt(s, pat, 0);
      assert forall i :: OccursAt(s, pat, i) ==> OccursAt(s[1..], pat, i - 1);
      r
  }
}

=== FILE: wrappers.dfy ===
/** Failure-carrying datatypes shared by the whole model. */
module Wrappers {

  /** A value that may be absent. `None` stands for JavaScript's `undefined`
      wherever the source reads a missing array slot or object property. */
  datatype Option<+T> = None | Some(value: T)

  /** The settled outcome of an operation that may throw. */
  datatype Result<+T, +E> = Ok(value: T) | Err(error: E)
}
